=== FILE: README.md ===
# Geotag scanner: decision layer

A Dafny model of the decision logic in the image-geotag scanner (`main.go`).
The scanner walks a directory tree and picks out image files by extension. It
reads the EXIF latitude and longitude of each image and writes them to
`lat_long.csv`, and optionally to `lat_long.html`. The model covers four pieces:

- `ImageClassifier` (`classifier.dfy`): the case-sensitive suffix test against
  `.jpg`, `.gif`, `.png` and `.jpeg`.
- `Visitor` (`visitor.dfy`): the per-entry visitor of the walk, written as a
  left fold over the entries the walk presents. Each entry carries the walk's
  error (if any), a directory flag, a name, and one abstract outcome for
  open, decode and coordinate read: `OpenFail`, `DecodeFail`, `NoCoords` or
  `Coords(lat, long)`. The fold accumulates the record list and the CSV rows
  together, and stops at the first walk error.
- `Extract` (`extract.dfy`): `extractLatLong` as a function of the two format
  flags and of the abstract results of file creation, the walk and HTML
  writing. It also covers the reporting branch of `main`, which classifies the
  result as failure, partial success or success.
- `Options` (`options.dfy`): `Option`, standing for Go's nil-or-value returns.

Latitude and longitude are float64 values that the model never inspects, so
they are a type parameter `F`. The `%f` rendering of CSV cells is passed in as
a function `format`.

Points of the code's behaviour worth knowing:

- A walk error leaves `CSVFilePath` empty (main.go:76-81), so `main` reports
  "file generation failure", although `lat_long.csv` already holds the header
  and the rows written before the error (`Extract.WalkErrorAbortsScan`).
- With `_csv` false the walk never runs, because it sits inside `if _csv`
  (main.go:61-82). The HTML writer then receives the empty record list
  (`Extract.HtmlOnlyRendersNoRecords`). `main` always passes `_csv = true`
  (main.go:31), so the command line cannot reach this path.
- The program scans one directory per run (main.go:30).

## Model

| member | source | states |
|---|---|---|
| ImageClassifier.HasSuffix | main.go:101 | the suffix test holds iff the suffix is no longer than the name and matches its last characters position by position |
| ImageClassifier.HasSuffixIffSplit | main.go:101 | the suffix test holds iff the name is some prefix followed by the suffix |
| ImageClassifier.EndsWithAny | main.go:100-105 | the loop over the extensions is true iff some listed extension is a suffix of the name |
| ImageClassifier.IsImageFile | main.go:97-106 | a name is an image iff it ends with one of the entries of the fixed extension list |
| ImageClassifier.IsImageFileIffStemPlusExt | main.go:97-106 | a name is an image iff it is a stem followed by ".jpg", ".gif", ".png" or ".jpeg" |
| ImageClassifier.StemPlusExtIsImage | main.go:97-106 | any stem followed by an accepted extension is an image, including a bare extension |
| ImageClassifier.UpperCaseRejected | main.go:101 | the match is case-sensitive: "X.JPG", "a.PNG" and "c.GIF" are rejected |
| ImageClassifier.LowerCaseAccepted | main.go:97-106 | "X.jpg" and "b.jpeg" are accepted |
| ImageClassifier.OutputFilesAreNotImages | main.go:62-84 | the report files "lat_long.csv" (line 62) and "lat_long.html" (line 84) created in the scanned directory are never taken for images when the walk meets them |
| Visitor.RowOf | main.go:144 | the row written for a record has exactly one cell per header column |
| Visitor.Visit | main.go:108-148 | an incoming error comes back unchanged with nothing appended; otherwise the result is nil; directories append nothing; exactly a qualifying entry appends its record and its CSV row |
| Visitor.Walk | main.go:76 | the walk returns nil iff no entry carries a walk error; a returned error is one carried by an entry; records and rows are only ever appended |
| Visitor.RowsOf | main.go:144 | one CSV row per record, in record order, each holding the path and the two formatted coordinates |
| Visitor.WalkUpToFirstError | main.go:108-147 | the walk appends exactly the records, in order, of the qualifying entries before the first erroring entry, and returns that entry's error, or nil when there is none |
| Visitor.CompletedWalk | main.go:117-147 | without walk errors the walk returns nil having appended the records of all qualifying entries in order, with their rows |
| Visitor.AbortIgnoresLaterEntries | main.go:109-111 | entries after the first walk error have no effect on the walk's result |
| Visitor.ExtendKeepsInStep | main.go:144-145 | appending records together with their rows keeps the CSV rows equal to the header followed by one row per record |
| Visitor.WalkKeepsInStep | main.go:74-76 | after every walk, completed or aborted, the CSV rows are the header followed by exactly one row per record, in record order |
| Visitor.SelectedMembers | main.go:117-147 | a record is in the reference selection iff some entry is a non-directory image without walk error whose open, decode and coordinate read all succeed, and it carries that entry's path and coordinates (the walk produces this selection of the entries before the first error: Visitor.WalkUpToFirstError) |
| Visitor.SelectedCount | main.go:144-145 | the number of records equals the number of qualifying entries |
| Visitor.DirectoriesContributeNothing | main.go:113-115 | a directory entry contributes no record wherever it stands, whatever its name |
| Visitor.SkippedEntryIsTransparent | main.go:117-142 | a non-image, or an image whose open, decode or coordinate read fails, is skipped and the walk goes on as if it were absent |
| Extract.Join | main.go:62 | the joined path is non-empty and ends with the file name; an empty or "." directory gives the file name alone; any other directory is a prefix of the result |
| Extract.Initial | main.go:70-74 | before the walk the record list is empty and the CSV holds the header row alone, so rows and records start in step |
| Extract.CsvStage | main.go:61-82 | the CSV phase succeeds iff the file is created and no entry carries a walk error; its error is the creation error, else the first walk error; only on success is the CSV path set; the CSV file exists iff creation succeeded |
| Extract.ExtractLatLong | main.go:54-93 | with neither format the scan fails before creating or walking anything; the error returned is the CSV creation error, else the first walk error, else (with HTML requested) the HTML write error, each unchanged; HTML is not attempted after a failed CSV phase (creation failure or walk abort); on success each output path is set iff its format was requested; the HTML path is set only on success |
| Extract.WalkErrorAbortsScan | main.go:76-80 | a walk error is returned unchanged, both paths stay empty, HTML is never attempted, and the CSV file keeps the header and the rows written before the error |
| Extract.CompletedScanContents | main.go:70-85 | after a completed walk the CSV file is the header plus one row per qualifying entry in walk order, and the HTML writer receives exactly those records |
| Extract.NoImagesHeaderOnly | main.go:74-117 | when no non-directory entry has an image name, the CSV file holds only the header row and the HTML writer receives no records |
| Extract.HtmlOnlyRendersNoRecords | main.go:61-85 | with only HTML requested there is no CSV file and the HTML writer receives no records |
| Extract.ErrorWithPathIffHtmlFailed | main.go:61-92 | the scan returns an error while an output path is set exactly when the CSV phase finished and HTML output was requested and failed |
| Extract.Main | main.go:25-29 | the missing-directory message is given iff no directory argument is present |
| Extract.MainOutcomes | main.go:30-45 | failure iff CSV creation fails or the walk aborts, carrying that error and the directory; partial success iff only the requested HTML output fails, carrying the HTML error and the CSV path; on success the CSV path is set and the HTML path is the joined HTML path iff "html" was passed, else empty |

## Left out

- Directory traversal (`filepath.WalkDir`): its order, its recursion and the second call it makes for an unreadable directory are not modelled. The walk is the given sequence of entries.
- File I/O: the success or failure of `os.Create` (CSV and HTML) and of `os.Open` on each image is modelled, as inputs. `Close` and the deferred `Flush` are assumed to succeed. The source ignores their errors (main.go:68, 71), as well as those of `writer.Write` (main.go:74, 144). A failed write or flush would leave `lat_long.csv` holding less than the model's `csvFile`, while the scan still returns nil.
- EXIF decoding and `LatLong` belong to an external library. Each entry carries their combined outcome.
- Floating point: coordinates are opaque. The `%f` formatting is a parameter, and the template's default rendering is not modelled.
- CSV quoting (`encoding/csv`) and HTML rendering (`text/template`) are not modelled. A failed template parse, a failed HTML file creation and a failed template execution are one abstract HTML error. A half-written HTML file is not modelled.
- Extract.Join: models only the dropping of an empty or "." directory and the merging of a trailing slash; the rest of the lexical cleaning `path.Join` applies (`..` and `.` components, repeated slashes) is not modelled, so the directory is assumed to contain none of these.
- The globals `writer` and `lat_long_data` are modelled as a state threaded through the fold, starting empty as in a single run of the program.
- Console output (`fmt.Println`): the text of the messages is not modelled, only which report is chosen.
- Command-line parsing beyond the directory argument and the `html` flag. `os.Args` is assumed to be non-empty. Go builds it directly from argv, and it is the operating system (for example Linux 5.18 and later) that normally rules out an empty argv. This assumption excludes the index panic at main.go:30 that an empty `os.Args` would cause.
- Visitor.RowOf: its contract states only the cell count; the cells themselves (path, `%f` latitude, `%f` longitude) are given by its definition, which Visitor.RowsOf and the CSV lemmas use.
- Names are Dafny strings (sequences of Unicode characters), while Go names are byte strings. For the four ASCII extensions the classifier matches the suffix test agrees on every valid UTF-8 name, but names that are not valid UTF-8 cannot be represented.

=== FILE: classifier.dfy ===
/**
  The extension classifier of the scanner: a file is an image candidate when
  its name ends, case-sensitively, with one of four fixed extensions.
 */
module ImageClassifier {

  /** The extensions accepted as images, in the order the source lists them. */
  const ValidExt: seq<string> := [".jpg", ".gif", ".png", ".jpeg"]

  /** Go's strings.HasSuffix: the last |suffix| characters of s are suffix. */
  predicate HasSuffix(s: string, suffix: string): (b: bool)
    ensures b <==> |suffix| <= |s| && forall i :: 0 <= i < |suffix| ==> s[|s| - |suffix| + i] == suffix[i]
  {
    |suffix| <= |s| && s[|s| - |suffix|..] == suffix
  }

  /** HasSuffix agrees with the definition by concatenation: s is some prefix followed by suffix. */
  lemma HasSuffixIffSplit(s: string, suffix: string)
    ensures HasSuffix(s, suffix) <==> exists p: string :: s == p + suffix
  {
    if HasSuffix(s, suffix) {
      var p := s[..|s| - |suffix|];
      assert s == p + suffix;
    }
    if p: string :| s == p + suffix {
      assert s[|s| - |suffix|..] == suffix;
    }
  }

  /** True when name ends with at least one of exts; scans exts front to back like the source's loop. */
  function EndsWithAny(name: string, exts: seq<string>): (r: bool)
    ensures r <==> exists i :: 0 <= i < |exts| && HasSuffix(name, exts[i])
  {
    if |exts| == 0 then false
    else if HasSuffix(name, exts[0]) then true
    else
      var rest := EndsWithAny(name, exts[1..]);
      assert forall i :: 1 <= i < |exts| ==> exts[i] == exts[1..][i - 1];
      rest
  }

  /** The classifier applied to a directory entry's name. */
  function IsImageFile(name: string): (r: bool)
    ensures r <==> exists ext :: ext in ValidExt && HasSuffix(name, ext)
  {
    EndsWithAny(name, ValidExt)
  }

  /** Reference characterisation: an image name is some stem followed by one of the four extensions. */
  lemma IsImageFileIffStemPlusExt(name: string)
    ensures IsImageFile(name) <==>
      (exists p: string :: name == p + ".jpg" || name == p + ".gif" || name == p + ".png" || name == p + ".jpeg")
  {
    HasSuffixIffSplit(name, ".jpg");
    HasSuffixIffSplit(name, ".gif");
    HasSuffixIffSplit(name, ".png");
    HasSuffixIffSplit(name, ".jpeg");
  }

  /** Appending an accepted extension to any stem yields an image name. */
  lemma StemPlusExtIsImage(stem: string, ext: string)
    requires ext in ValidExt
    ensures IsImageFile(stem + ext)
  {
    assert (stem + ext)[|stem + ext| - |ext|..] == ext;
  }

  /** The match is case-sensitive: upper-case spellings of the extensions are rejected. */
  lemma UpperCaseRejected()
    ensures !IsImageFile("X.JPG") && !IsImageFile("a.PNG") && !IsImageFile("c.GIF")
  {
    NotImageByLastChar("X.JPG");
    NotImageByLastChar("a.PNG");
    NotImageByLastChar("c.GIF");
  }

  /** Lower-case spellings of the extensions are accepted. */
  lemma LowerCaseAccepted()
    ensures IsImageFile("X.jpg") && IsImageFile("b.jpeg")
  {
    assert HasSuffix("X.jpg", ".jpg") by {
      assert "X.jpg"[1..] == ".jpg";
    }
    assert HasSuffix("b.jpeg", ".jpeg") by {
      assert "b.jpeg"[1..] == ".jpeg";
    }
    assert ".jpg" in ValidExt && ".jpeg" in ValidExt;
  }

  /** The report files the scanner writes into the scanned directory are never taken for images. */
  lemma OutputFilesAreNotImages()
    ensures !IsImageFile("lat_long.csv") && !IsImageFile("lat_long.html")
  {
    NotImageByLastChar("lat_long.csv");
    NotImageByLastChar("lat_long.html");
  }

  /** A name whose last character ends none of the extensions is rejected. */
  lemma NotImageByLastChar(name: string)
    requires |name| > 0 && name[|name| - 1] !in {'g', 'f'}
    ensures !IsImageFile(name)
  {
  }
}

=== FILE: extract.dfy ===
/**
  The orchestration of one scan (extractLatLong) and the way the program's
  entry point reports its outcome.

  File creation, the walk and HTML rendering are not performed: their
  results are inputs, collected in an Env. The model returns the response
  the source returns, the error, and what ends up in the two output files.
 */
module Extract {
  import opened Options
  import opened ImageClassifier
  import opened Visitor

  /** The response of one scan: the scanned directory and the output paths produced ("" when not). */
  datatype Response = Response(directory: string, csvFilePath: string, htmlFilePath: string)

  /**
    The results of the I/O a scan performs, given in advance: the error (if
    any) of creating the CSV file, the entries the walk presents, and the
    error (if any) of creating or rendering the HTML file.
   */
  datatype Env<F> = Env(csvCreate: Option<Error>, entries: seq<Entry<F>>, htmlWrite: Option<Error>)

  /**
    A scan's result. csvFile holds the rows in the CSV file when it was
    created, assuming every buffered write and the deferred flush succeed
    (the flush runs on every return path, so also after an aborted walk);
    htmlData holds the records handed to the HTML writer when it was called.
   */
  datatype Scan<F> = Scan(res: Response, err: Option<Error>, csvFile: Option<seq<Row>>, htmlData: Option<seq<Record<F>>>)

  const CsvName: string := "lat_long.csv"
  const HtmlName: string := "lat_long.html"

  /** The error returned when neither output format is requested. */
  const NoFormat: Error := Error("no file format provided to write lat-long data")

  /**
    path.Join of a directory and a plain file name. Of the lexical cleaning
    path.Join applies, only the dropping of an empty or "." directory and the
    merging of a trailing slash are modelled.
   */
  function Join(dir: string, name: string): (p: string)
    requires |name| > 0
    ensures |p| > 0
    ensures HasSuffix(p, name)
    ensures dir == "" || dir == "." ==> p == name
    ensures dir != "." ==> |p| >= |dir| && p[..|dir|] == dir
  {
    if dir == "" || dir == "." then name
    else if dir[|dir| - 1] == '/' then dir + name
    else dir + "/" + name
  }

  /** The state of the CSV writer and record list when the walk starts: the header row only. */
  function Initial<F>(format: F -> string): (s: State<F>)
    ensures InStep(s, format)
    ensures |s.records| == 0
  {
    State([], [Header])
  }

  /**
    The error the CSV phase ends with: the creation error, else the error of
    the first entry carrying a walk error, else none.
   */
  function CsvError<F>(env: Env<F>): Option<Error> {
    if env.csvCreate.Some? then env.csvCreate
    else if NoWalkError(env.entries) then None
    else env.entries[FirstError(env.entries)].walkErr
  }

  /** Result of the CSV phase: the response so far, the error, the CSV file's rows and the record list for the HTML phase. */
  datatype CsvPhase<F> = CsvPhase(res: Response, err: Option<Error>, csvFile: Option<seq<Row>>, data: seq<Record<F>>)

  /**
    The CSV phase of extractLatLong, entered when CSV output is requested:
    create the file, write the header, walk. The CSV path is recorded only
    when the walk completes.
   */
  function CsvStage<F>(res: Response, env: Env<F>, format: F -> string): (c: CsvPhase<F>)
    requires res.csvFilePath == "" && res.htmlFilePath == ""
    ensures c.res.directory == res.directory && c.res.htmlFilePath == ""
    ensures c.err.None? <==> env.csvCreate.None? && NoWalkError(env.entries)
    ensures c.err.None? ==> c.res.csvFilePath == Join(res.directory, CsvName)
    ensures c.err.Some? ==> c.res == res
    ensures c.csvFile.None? <==> env.csvCreate.Some?
    ensures c.err == CsvError(env)
  {
    if env.csvCreate.Some? then CsvPhase(res, env.csvCreate, None, [])
    else
      var w := Walk(Initial(format), env.entries, format);
      WalkUpToFirstError(Initial(format), env.entries, format);
      if w.err.Some? then CsvPhase(res, w.err, Some(w.state.rows), w.state.records)
      else CsvPhase(res.(csvFilePath := Join(res.directory, CsvName)), None, Some(w.state.rows), w.state.records)
  }

  /**
    extractLatLong(dir, _csv, _html). With no format requested it fails before
    touching anything; otherwise the CSV phase (if requested) runs first and
    any error there returns at once; then the HTML phase (if requested) hands
    the record list to the HTML writer.
   */
  function ExtractLatLong<F>(dir: string, csv: bool, html: bool, env: Env<F>, format: F -> string): (r: Scan<F>)
    ensures r.res.directory == dir
    ensures !csv && !html ==> r == Scan(Response(dir, "", ""), Some(NoFormat), None, None)
    ensures r.err.None? ==> (r.res.csvFilePath == Join(dir, CsvName) <==> csv) && (r.res.csvFilePath == "" <==> !csv)
    ensures r.err.None? ==> (r.res.htmlFilePath == Join(dir, HtmlName) <==> html) && (r.res.htmlFilePath == "" <==> !html)
    ensures r.err.Some? ==> r.res.htmlFilePath == ""
    ensures r.res.csvFilePath == "" || r.res.csvFilePath == Join(dir, CsvName)
    ensures r.htmlData.Some? ==> html
    ensures r.csvFile.Some? <==> csv && env.csvCreate.None?
    ensures csv ==> r.err == (if CsvError(env).Some? then CsvError(env) else if html then env.htmlWrite else None)
    ensures !csv && html ==> r.err == env.htmlWrite
    ensures csv && CsvError(env).Some? ==> r.htmlData.None?
  {
    var res := Response(dir, "", "");
    if !csv && !html then Scan(res, Some(NoFormat), None, None)
    else
      var c := if csv then CsvStage(res, env, format) else CsvPhase(res, None, None, []);
      if c.err.Some? then Scan(c.res, c.err, c.csvFile, None)
      else if !html then Scan(c.res, None, c.csvFile, None)
      else if env.htmlWrite.Some? then Scan(c.res, env.htmlWrite, c.csvFile, Some(c.data))
      else Scan(c.res.(htmlFilePath := Join(dir, HtmlName)), None, c.csvFile, Some(c.data))
  }

  /**
    A walk error aborts the scan: that very error is returned, neither output
    path is set, the HTML writer is never called, and the CSV file keeps the
    header and the rows of the entries visited before the error.
   */
  lemma WalkErrorAbortsScan<F>(dir: string, html: bool, env: Env<F>, format: F -> string)
    requires env.csvCreate.None?
    requires FirstError(env.entries) < |env.entries|
    ensures var r := ExtractLatLong(dir, true, html, env, format);
            var k := FirstError(env.entries);
            && r.err == env.entries[k].walkErr
            && r.res == Response(dir, "", "")
            && r.htmlData.None?
            && r.csvFile == Some([Header] + RowsOf(Selected(env.entries[..k]), format))
  {
    WalkUpToFirstError(Initial(format), env.entries, format);
  }

  /**
    After a completed walk the CSV file holds the header and one row per
    qualifying entry in walk order, and the HTML writer (when requested)
    receives exactly those records.
   */
  lemma CompletedScanContents<F>(dir: string, html: bool, env: Env<F>, format: F -> string)
    requires env.csvCreate.None? && NoWalkError(env.entries)
    ensures var r := ExtractLatLong(dir, true, html, env, format);
            && r.csvFile == Some([Header] + RowsOf(Selected(env.entries), format))
            && r.res.csvFilePath == Join(dir, CsvName)
            && (html ==> r.htmlData == Some(Selected(env.entries)))
  {
    CompletedWalk(Initial(format), env.entries, format);
    assert [] + Selected(env.entries) == Selected(env.entries);
  }

  /**
    A tree without image names yields a CSV file holding only the header
    row, and an empty record list for the HTML writer.
   */
  lemma NoImagesHeaderOnly<F>(dir: string, html: bool, env: Env<F>, format: F -> string)
    requires env.csvCreate.None? && NoWalkError(env.entries)
    requires forall k :: 0 <= k < |env.entries| && !env.entries[k].isDir ==> !IsImageFile(env.entries[k].name)
    ensures ExtractLatLong(dir, true, html, env, format).csvFile == Some([Header])
    ensures html ==> ExtractLatLong(dir, true, html, env, format).htmlData == Some([])
  {
    CompletedScanContents(dir, html, env, format);
    if |Selected(env.entries)| > 0 {
      SelectedMembers(env.entries, Selected(env.entries)[0]);
      assert false;
    }
  }

  /**
    With only HTML requested the walk is skipped altogether: no CSV file is
    created and the HTML writer receives an empty record list, whatever the
    directory holds.
   */
  lemma HtmlOnlyRendersNoRecords<F>(dir: string, env: Env<F>, format: F -> string)
    ensures ExtractLatLong(dir, false, true, env, format).csvFile.None?
    ensures ExtractLatLong(dir, false, true, env, format).htmlData == Some([])
  {
  }

  /**
    The scan ends with an error while an output path is set exactly when the
    CSV phase finished and the HTML file could not be produced.
   */
  lemma ErrorWithPathIffHtmlFailed<F>(dir: string, csv: bool, html: bool, env: Env<F>, format: F -> string)
    ensures var r := ExtractLatLong(dir, csv, html, env, format);
            (r.err.Some? && (r.res.csvFilePath != "" || r.res.htmlFilePath != ""))
            <==> (csv && env.csvCreate.None? && NoWalkError(env.entries) && html && env.htmlWrite.Some?)
  {
  }

  /** What the entry point reports. */
  datatype Report =
    | NoDirectory
    | GenerationFailure(directory: string, err: Error)
    | PartialSuccess(csvPath: string, htmlPath: string, err: Error)
    | Generated(csvPath: string, htmlPath: string)

  /**
    The entry point: args are the command line with the program name first.
    CSV is always requested; HTML when the second argument is "html". An error
    with no output path is a failure, an error with a path a partial success.
   */
  function Main<F>(args: seq<string>, env: Env<F>, format: F -> string): (r: Report)
    requires |args| >= 1
    ensures r.NoDirectory? <==> |args| == 1
  {
    if |args| == 1 then NoDirectory
    else
      var dir := args[1];
      var html := HtmlRequested(args);
      var s := ExtractLatLong(dir, true, html, env, format);
      if s.err.Some? then
        if |s.res.csvFilePath| == 0 && |s.res.htmlFilePath| == 0 then GenerationFailure(s.res.directory, s.err.value)
        else PartialSuccess(s.res.csvFilePath, s.res.htmlFilePath, s.err.value)
      else Generated(s.res.csvFilePath, s.res.htmlFilePath)
  }

  /** The HTML flag the entry point derives from its arguments. */
  predicate HtmlRequested(args: seq<string>) {
    |args| > 2 && args[2] == "html"
  }

  /**
    The three reported outcomes of a scan, each characterised by the I/O
    results: failure when the CSV file cannot be created or the walk
    aborts, partial success when only the HTML output fails, and success
    otherwise, with the CSV path always and the HTML path iff requested.
   */
  lemma MainOutcomes<F>(args: seq<string>, env: Env<F>, format: F -> string)
    requires |args| >= 2
    ensures var r := Main(args, env, format);
            && (r.GenerationFailure? <==> env.csvCreate.Some? || !NoWalkError(env.entries))
            && (r.GenerationFailure? ==> r.directory == args[1] && Some(r.err) == CsvError(env))
            && (r.PartialSuccess? <==> env.csvCreate.None? && NoWalkError(env.entries) && HtmlRequested(args) && env.htmlWrite.Some?)
            && (r.PartialSuccess? ==> r.csvPath == Join(args[1], CsvName) && r.htmlPath == "" && Some(r.err) == env.htmlWrite)
            && (r.Generated? ==> r.csvPath == Join(args[1], CsvName))
            && (r.Generated? ==> r.htmlPath == (if HtmlRequested(args) then Join(args[1], HtmlName) else ""))
  {
  }
}

=== FILE: options.dfy ===
/** Optional values, used for Go's nil-or-error returns. */
module Options {

  /** None stands for Go's nil; Some carries a present value. */
  datatype Option<+T> = None | Some(value: T)
}

=== FILE: visitor.dfy ===
/**
  The per-entry visitor of the directory walk, modelled as a fold.

  The walk itself is not modelled: it is given as the ordered sequence of
  entries it would present to the visitor. Opening the file, decoding its
  EXIF block and reading the coordinates are summarised per entry as one
  abstract Outcome. Latitude and longitude are float64 values the model never
  inspects, so they are a type parameter F, and the `%f` rendering used for
  CSV cells is passed in as `format`.
 */
module Visitor {
  import opened Options
  import opened ImageClassifier

  /** An error value as Go's `error`, identified by its message. */
  datatype Error = Error(message: string)

  /** What opening, decoding and reading the coordinates of a file gives. */
  datatype Outcome<F> = OpenFail | DecodeFail | NoCoords | Coords(lat: F, long: F)

  /**
    One call of the visitor: the path the walk passes, the error the walk
    passes (None for nil), whether the entry is a directory, its base name, and
    what reading it as an image would give.
   */
  datatype Entry<F> = Entry(path: string, walkErr: Option<Error>, isDir: bool, name: string, outcome: Outcome<F>)

  /** One extracted coordinate pair, keyed by the visited path. */
  datatype Record<F> = Record(filePath: string, latitude: F, longitude: F)

  /** One CSV row, as the list of its cells. */
  type Row = seq<string>

  /** The header row written before the walk starts. */
  const Header: Row := ["File Path", "Latitude", "Longitude"]

  /** The two accumulators the visitor appends to: the record list and the CSV rows written so far. */
  datatype State<F> = State(records: seq<Record<F>>, rows: seq<Row>)

  /** The visitor's (or the walk's) result: the accumulators and the error returned, None for nil. */
  datatype Step<F> = Step(state: State<F>, err: Option<Error>)

  /** The CSV row written for a record. */
  function RowOf<F>(r: Record<F>, format: F -> string): (row: Row)
    ensures |row| == |Header|
  {
    [r.filePath, format(r.latitude), format(r.longitude)]
  }

  /** An entry produces a record exactly when all of these hold. */
  predicate Qualifies<F>(e: Entry<F>) {
    && e.walkErr.None?
    && !e.isDir
    && IsImageFile(e.name)
    && e.outcome.Coords?
  }

  /** The record a qualifying entry produces. */
  function RecordOf<F>(e: Entry<F>): Record<F>
    requires e.outcome.Coords?
  {
    Record(e.path, e.outcome.lat, e.outcome.long)
  }

  /** The accumulators after appending one record and its CSV row together. */
  function Append<F>(s: State<F>, r: Record<F>, format: F -> string): State<F> {
    State(s.records + [r], s.rows + [RowOf(r, format)])
  }

  /**
    One call of the visitor. An incoming walk error is handed back unchanged
    and nothing is appended; otherwise the result is nil whatever happens to
    the file, and exactly the qualifying entries append a record and its row.
   */
  function Visit<F>(s: State<F>, e: Entry<F>, format: F -> string): (r: Step<F>)
    ensures e.walkErr.Some? ==> r == Step(s, e.walkErr)
    ensures e.walkErr.None? ==> r.err.None?
    ensures e.isDir ==> r.state == s
    ensures Qualifies(e) ==> r.state == Append(s, RecordOf(e), format)
    ensures !Qualifies(e) ==> r.state == s
  {
    if e.walkErr.Some? then Step(s, e.walkErr)
    else if e.isDir then Step(s, None)
    else if IsImageFile(e.name) then
      match e.outcome
      case OpenFail => Step(s, None)
      case DecodeFail => Step(s, None)
      case NoCoords => Step(s, None)
      case Coords(lat, long) => Step(Append(s, Record(e.path, lat, long), format), None)
    else Step(s, None)
  }

  /** No entry of the walk carries a traversal error. */
  predicate NoWalkError<F>(entries: seq<Entry<F>>) {
    forall k :: 0 <= k < |entries| ==> entries[k].walkErr.None?
  }

  /**
    The walk as a left fold of Visit: entries are visited in order and the
    first non-nil result of the visitor stops the walk and is returned.
   */
  function Walk<F>(s: State<F>, entries: seq<Entry<F>>, format: F -> string): (r: Step<F>)
    ensures r.err.None? <==> NoWalkError(entries)
    ensures r.err.Some? ==> exists k :: 0 <= k < |entries| && entries[k].walkErr == r.err
    ensures s.records <= r.state.records && s.rows <= r.state.rows
    decreases |entries|
  {
    if |entries| == 0 then Step(s, None)
    else
      var step := Visit(s, entries[0], format);
      if step.err.Some? then step
      else
        var rest := Walk(step.state, entries[1..], format);
        assert forall k :: 1 <= k < |entries| ==> entries[k] == entries[1..][k - 1];
        rest
  }

  /**
    Reference definition of the walk's product: the records of the qualifying
    entries, in entry order. It knows nothing of accumulators or errors.
   */
  function Selected<F>(entries: seq<Entry<F>>): seq<Record<F>> {
    if |entries| == 0 then []
    else (if Qualifies(entries[0]) then [RecordOf(entries[0])] else []) + Selected(entries[1..])
  }

  /** The CSV rows of a record list, one per record and in the same order. */
  function RowsOf<F>(records: seq<Record<F>>, format: F -> string): (rows: seq<Row>)
    ensures |rows| == |records|
    ensures forall i :: 0 <= i < |records| ==> rows[i] == RowOf(records[i], format)
  {
    if |records| == 0 then [] else [RowOf(records[0], format)] + RowsOf(records[1..], format)
  }

  /** The index of the first entry carrying a walk error, or |entries| when there is none. */
  function FirstError<F>(entries: seq<Entry<F>>): (k: nat)
    ensures k <= |entries|
    ensures forall j :: 0 <= j < k ==> entries[j].walkErr.None?
    ensures k < |entries| ==> entries[k].walkErr.Some?
  {
    if |entries| == 0 then 0
    else if entries[0].walkErr.Some? then 0
    else 1 + FirstError(entries[1..])
  }

  lemma RowsOfAppend<F>(a: seq<Record<F>>, b: seq<Record<F>>, format: F -> string)
    ensures RowsOf(a + b, format) == RowsOf(a, format) + RowsOf(b, format)
  {
  }

  lemma {:induction false} SelectedAppend<F>(a: seq<Entry<F>>, b: seq<Entry<F>>)
    ensures Selected(a + b) == Selected(a) + Selected(b)
    decreases |a|
  {
    if |a| > 0 {
      var h := if Qualifies(a[0]) then [RecordOf(a[0])] else [];
      assert (a + b)[0] == a[0];
      assert (a + b)[1..] == a[1..] + b;
      assert Selected(a + b) == h + Selected(a[1..] + b);
      assert Selected(a) == h + Selected(a[1..]);
      SelectedAppend(a[1..], b);
    } else {
      assert a + b == b;
    }
  }

  /** The accumulators after appending a list of records and their rows. */
  function Extend<F>(s: State<F>, records: seq<Record<F>>, format: F -> string): State<F> {
    State(s.records + records, s.rows + RowsOf(records, format))
  }

  /** What the walk is claimed to return: the prefix before the first error selected, and that error. */
  function Expected<F>(s: State<F>, entries: seq<Entry<F>>, format: F -> string): Step<F> {
    var k := FirstError(entries);
    Step(Extend(s, Selected(entries[..k]), format), if k < |entries| then entries[k].walkErr else None)
  }

  /** Extending by one entry's contribution and then by the rest is extending by both. */
  lemma ExtendTwice<F>(s: State<F>, head: seq<Record<F>>, tail: seq<Record<F>>, format: F -> string)
    ensures Extend(Extend(s, head, format), tail, format) == Extend(s, head + tail, format)
  {
    RowsOfAppend(head, tail, format);
    assert s.records + head + tail == s.records + (head + tail);
    assert s.rows + RowsOf(head, format) + RowsOf(tail, format) == s.rows + RowsOf(head + tail, format);
  }

  /**
    The walk visits exactly the entries before the first erroring one: its
    accumulators gain the records of those entries (and their rows), in order,
    and it returns that entry's error, or nil when every entry was visited.
   */
  lemma {:induction false} WalkUpToFirstError<F>(s: State<F>, entries: seq<Entry<F>>, format: F -> string)
    ensures Walk(s, entries, format) == Expected(s, entries, format)
    decreases |entries|
  {
    if |entries| == 0 {
      assert entries[..0] == [];
    } else if entries[0].walkErr.Some? {
      assert entries[..0] == [];
    } else {
      var e := entries[0];
      var rest := entries[1..];
      var head := if Qualifies(e) then [RecordOf(e)] else [];
      var step := Visit(s, e, format);
      assert step.state == Extend(s, head, format);
      WalkUpToFirstError(step.state, rest, format);
      var k := FirstError(entries);
      assert k == 1 + FirstError(rest);
      assert entries[..k] == [e] + rest[..k - 1];
      SelectedAppend([e], rest[..k - 1]);
      assert Selected([e]) == head by {
        assert [e][1..] == [];
      }
      ExtendTwice(s, head, Selected(rest[..k - 1]), format);
    }
  }

  /** A walk over entries without traversal errors returns nil having appended exactly the selected records and their rows. */
  lemma CompletedWalk<F>(s: State<F>, entries: seq<Entry<F>>, format: F -> string)
    requires NoWalkError(entries)
    ensures Walk(s, entries, format) == Step(State(s.records + Selected(entries), s.rows + RowsOf(Selected(entries), format)), None)
  {
    WalkUpToFirstError(s, entries, format);
    assert entries[..|entries|] == entries;
  }

  /** Nothing after the first erroring entry influences the walk. */
  lemma AbortIgnoresLaterEntries<F>(s: State<F>, entries: seq<Entry<F>>, later: seq<Entry<F>>, format: F -> string)
    requires FirstError(entries) < |entries|
    ensures Walk(s, entries + later, format) == Walk(s, entries, format)
  {
    var k := FirstError(entries);
    assert FirstError(entries + later) == k by {
      FirstErrorOfPrefix(entries, later);
    }
    WalkUpToFirstError(s, entries, format);
    WalkUpToFirstError(s, entries + later, format);
    assert (entries + later)[..k] == entries[..k];
  }

  lemma {:induction false} FirstErrorOfPrefix<F>(entries: seq<Entry<F>>, later: seq<Entry<F>>)
    requires FirstError(entries) < |entries|
    ensures FirstError(entries + later) == FirstError(entries)
    decreases |entries|
  {
    if entries[0].walkErr.None? {
      assert (entries + later)[1..] == entries[1..] + later;
      FirstErrorOfPrefix(entries[1..], later);
    }
  }

  /** The records and the CSV rows are in step: a header, then one row per record, in record order. */
  predicate InStep<F>(s: State<F>, format: F -> string) {
    s.rows == [Header] + RowsOf(s.records, format)
  }

  lemma ConsAssoc<T>(h: T, a: seq<T>, b: seq<T>)
    ensures [h] + a + b == [h] + (a + b)
  {
  }

  /** Appending records together with their rows keeps the accumulators in step. */
  lemma ExtendKeepsInStep<F>(s: State<F>, records: seq<Record<F>>, format: F -> string)
    requires InStep(s, format)
    ensures InStep(Extend(s, records, format), format)
  {
    var a := RowsOf(s.records, format);
    var b := RowsOf(records, format);
    RowsOfAppend(s.records, records, format);
    ConsAssoc(Header, a, b);
  }

  /** Every walk, completed or aborted, keeps the CSV rows in step with the records. */
  lemma {:induction false} WalkKeepsInStep<F>(s: State<F>, entries: seq<Entry<F>>, format: F -> string)
    requires InStep(s, format)
    ensures InStep(Walk(s, entries, format).state, format)
  {
    WalkUpToFirstError(s, entries, format);
    ExtendKeepsInStep(s, Selected(entries[..FirstError(entries)]), format);
  }

  /** A record is selected iff some entry qualifies and produces it. */
  lemma {:induction false} SelectedMembers<F>(entries: seq<Entry<F>>, r: Record<F>)
    ensures r in Selected(entries) <==> exists k :: 0 <= k < |entries| && Qualifies(entries[k]) && RecordOf(entries[k]) == r
    decreases |entries|
  {
    if |entries| > 0 {
      SelectedMembers(entries[1..], r);
      assert forall k :: 1 <= k < |entries| ==> entries[k] == entries[1..][k - 1];
      if exists k :: 0 <= k < |entries| && Qualifies(entries[k]) && RecordOf(entries[k]) == r {
        var k :| 0 <= k < |entries| && Qualifies(entries[k]) && RecordOf(entries[k]) == r;
        if k > 0 {
          assert entries[1..][k - 1] == entries[k];
        }
      }
    }
  }

  /** The number of entries that qualify. */
  function CountQualifying<F>(entries: seq<Entry<F>>): nat {
    if |entries| == 0 then 0
    else (if Qualifies(entries[0]) then 1 else 0) + CountQualifying(entries[1..])
  }

  /** Each qualifying entry contributes exactly one record. */
  lemma {:induction false} SelectedCount<F>(entries: seq<Entry<F>>)
    ensures |Selected(entries)| == CountQualifying(entries)
    decreases |entries|
  {
    if |entries| > 0 {
      SelectedCount(entries[1..]);
    }
  }

  /** Directories never contribute, whatever their name. */
  lemma {:induction false} DirectoriesContributeNothing<F>(before: seq<Entry<F>>, d: Entry<F>, after: seq<Entry<F>>)
    requires d.isDir && d.walkErr.None?
    ensures Selected(before + [d] + after) == Selected(before + after)
  {
    SelectedAppend(before + [d], after);
    SelectedAppend(before, [d]);
    SelectedAppend(before, after);
    assert Selected([d]) == [] by {
      assert [d][1..] == [];
    }
  }

  /**
    A non-directory entry whose open, decode or coordinate read fails, or a
    non-image, is skipped without stopping the walk: the walk goes on as if
    the entry were absent.
   */
  lemma SkippedEntryIsTransparent<F>(s: State<F>, e: Entry<F>, rest: seq<Entry<F>>, format: F -> string)
    requires e.walkErr.None? && !Qualifies(e)
    ensures Walk(s, [e] + rest, format) == Walk(s, rest, format)
  {
    assert ([e] + rest)[0] == e;
    assert ([e] + rest)[1..] == rest;
  }
}
